=== FILE: README.md ===
# Todo lists — a Dafny model

A model of the list/todo manager of a small Sinatra application (`todo.rb`).
The application keeps, per browser session, an ordered collection of todo
lists. Each list has a position `num`, a unique `name`, an ordered sequence of
todos, and a cached flag `todos_completed`. Each todo has a `name` and a
`completed` flag. Each request first recomputes every list's flag and then
runs one handler:

- create a list;
- rename a list;
- delete a list and renumber the rest;
- add, delete or toggle one todo;
- mark all todos of a list done.

Two helpers order lists and todos for display: not yet complete first, then
complete, each paired with its position.

In the model the collection is an immutable `seq<TodoList>`. Every handler is
a pure function from the collection to a `Result`: either the new collection
or the error that left it unchanged. `Session.Handle` puts a request together:
the normalisation pass, then the handler.

Modules:

- `Model` (model.dfy): `Todo`, `TodoList`, `Error`, `Option`, `Result`.
- `Validation` (validation.dfy): list-name and todo-text checks.
- `Completion` (completion.dfy): the "all complete" flag, the remaining count, and the normalisation pass.
- `ListOps` (list_ops.dfy): create, rename, delete, and the lookup by `num`.
- `TodoOps` (todo_ops.dfy): add, delete, toggle and complete-all.
- `Ordering` (ordering.dfy): `sort_lists`, `sort_todos`, and their reference specification `IsStablePartition`.
- `Session` (session.dfy): requests, the invariant `WellFormed`, and two end-to-end scenarios.

Behaviour at the edges, as the code has it:

- An index that the Ruby code would dereference as `nil` is modelled as
  `Err(NotFound)`. That covers the list in rename, add-todo, delete-todo,
  toggle and complete-all, and the todo in toggle.
- An index past the end in delete-list or delete-todo is a no-op, as Ruby's
  `delete_at` makes it; a hardened handler would answer `NotFound`, and the
  model does not.
- For add-todo the list lookup comes before the text check, so `NotFound`
  takes precedence over `InvalidLength`. For rename it also takes precedence
  over both validation errors.
- Handlers do not recompute the completion flag. Add-todo, for example, can
  leave a stale flag until the next request's normalisation pass, and the
  model keeps that behaviour.

## Model

| member | source | states |
|---|---|---|
| Validation.ListNameError | todo.rb:70-78 | a length error exactly when the name is outside 1..100 characters; otherwise a uniqueness error exactly when some existing name equals it; otherwise no error |
| Validation.TodoError | todo.rb:80-84 | an error, always the length error, exactly when the text is outside 1..100 characters |
| Completion.AllDone | todo.rb:19 | `all?` holds exactly when every todo is done, vacuously on no todos |
| Completion.Recompute | todo.rb:17-21 | the recomputed flag is true exactly when the list has todos and all are done; nothing else changes; a consistent list is left as it is |
| Completion.UpdateTodosCompleted | todo.rb:11-21 | after the pass every list's flag is consistent, only flags change, and a collection already consistent is unchanged |
| Completion.UpdateTodosCompletedIdempotent | todo.rb:17-21 | running the normalisation pass twice equals running it once |
| Completion.RemainingTodos | todo.rb:24-26 | the count of todos not yet done is at most the number of todos |
| Completion.RemainingExtremes | todo.rb:24-26 | the count is 0 exactly when every todo is done, and equals the number of todos exactly when none is |
| Completion.RemainingConcat | todo.rb:25 | the remaining count of a concatenation is the sum of the counts |
| Completion.CompleteIffNoneRemaining | todo.rb:17-26 | a consistent list's flag is set exactly when it has todos and none remain |
| ListOps.CreateList | todo.rb:88-101 | length error and duplicate error exactly under the validation rules; on success exactly one list is appended with `num` = prior count, the name, no todos and flag false, and every prior list is unchanged; numbering and unique names are kept |
| ListOps.OtherNames | todo.rb:119-123 | with the target's name blanked, a name is seen by the uniqueness check exactly when some other list has it |
| ListOps.RenameList | todo.rb:116-133 | `NotFound` exactly when out of range; a duplicate error exactly when another list has the name; on success only the target's name changes; numbering and unique names are kept |
| ListOps.RenameToOwnName | todo.rb:119-125 | in a uniquely named collection, renaming a list to its own name never reports a duplicate, and with a valid-length name leaves the collection unchanged |
| ListOps.DeleteList | todo.rb:136-144 | an in-range delete shortens the collection by one, keeps the others in order shifted past the gap, and leaves `num == index` throughout; an out-of-range delete only renumbers; unique names are kept |
| ListOps.Find | todo.rb:104 | `find` returns the first list carrying the requested `num`, and returns nothing exactly when no list carries it |
| ListOps.FindIsIndex | todo.rb:147-160 | in a densely numbered collection, the lookup by `num` and the direct index agree |
| TodoOps.RemoveAt | todo.rb:169 | `delete_at` removes exactly the element at the index, keeps the rest in order and as a multiset, and ignores an index past the end |
| TodoOps.SetCompleted | todo.rb:180-183 | only the target todo's flag changes, to the given value |
| TodoOps.MarkAllDone | todo.rb:195 | every todo is done, names and order unchanged |
| TodoOps.AddTodo | todo.rb:147-164 | `NotFound` exactly when the list is out of range, then a length error exactly when the text is invalid; on success `{text, not done}` is appended to that list only |
| TodoOps.DeleteTodo | todo.rb:166-172 | `NotFound` exactly when the list is out of range; otherwise only that list's todos change, by `delete_at` |
| TodoOps.ToggleTodo | todo.rb:174-187 | `NotFound` exactly when the list or the todo is out of range; otherwise only the target todo's flag changes, to the given value |
| TodoOps.CompleteAll | todo.rb:189-199 | `NotFound` exactly when the list is out of range; otherwise only that list's todos change, each becoming done with its name kept |
| TodoOps.AddTodoEffect | todo.rb:155-160 | adding a todo raises the remaining count by one, and the recomputed flag is false |
| TodoOps.RemoveAtRemaining | todo.rb:169 | deleting a todo lowers the remaining count by one exactly when that todo was not done |
| TodoOps.SetCompletedRemaining | todo.rb:182-183 | toggling changes the remaining count according to the todo's old and new flags |
| TodoOps.MarkAllDoneEffect | todo.rb:195 | after complete-all nothing remains, and the list is complete exactly when it has todos |
| Ordering.Bucket | todo.rb:43-49 | each entry pairs an element with its own position and has the requested flag; positions strictly increase |
| Ordering.BucketSizes | todo.rb:43-49 | every position falls in exactly one of the two groups |
| Ordering.PartitionIsStable | todo.rb:32-53 | the two groups together list every position once, not-done before done, each group in original order |
| Ordering.Select | todo.rb:33 | each half of `partition` holds only elements with the requested flag |
| Ordering.SelectIsBucketKeys | todo.rb:33 | over any prefix, a half of `partition` is exactly the elements with the requested flag, in their original order |
| Ordering.SelectIsBucket | todo.rb:33 | a half of `partition` is exactly the elements with the requested flag, in their original order |
| Ordering.SelectFrom | todo.rb:33 | each half of `partition` holds only elements of the input |
| Ordering.SelectSizes | todo.rb:33 | the two halves of `partition` together are as long as the input |
| Ordering.IndexOf | todo.rb:35-36 | `index` returns the first position holding the element |
| Ordering.Locate | todo.rb:35-36 | every element is paired with its first position in the collection, one pair per element, in order |
| Ordering.LocateSelect | todo.rb:33-36 | on a sequence without repeats, locating each half of `partition` by `index` yields each element's true position |
| Ordering.SortLists | todo.rb:32-37 | `sort_lists` yields as many entries as there are lists |
| Ordering.SortListsIsStable | todo.rb:32-37 | with unique names, `sort_lists` yields every list exactly once with its true position, not-complete lists first, each group in original order |
| Ordering.Store | todo.rb:45-47 | hash assignment appends a new key at the end; for a key already present it replaces the first entry with that key in place and changes nothing else |
| Ordering.StoreAt | todo.rb:45-47 | in a hash whose keys are distinct, assigning an existing key replaces exactly that key's entry |
| Ordering.TodoHash | todo.rb:40-49 | every hash entry pairs a todo with one of its positions and has the requested flag |
| Ordering.TodoHashShape | todo.rb:40-49 | the hash's keys are pairwise distinct, each key carries the last position at which its todo occurs, and every todo with the requested flag is a key |
| Ordering.TodoHashFirstOrder | todo.rb:43-49 | the hash lists its keys in the order of their todos' first occurrences: every key is one of the todos, and a repeated todo keeps the slot its first occurrence gave it |
| Ordering.SortTodosAsWritten | todo.rb:39-53 | every shown entry pairs a todo with one of its positions, not-done entries first |
| Ordering.TodoHashIsBucket | todo.rb:40-49 | on pairwise distinct todos the hash holds exactly the group, in order, with true positions |
| Ordering.SortTodosAsWrittenOnDistinct | todo.rb:39-53 | on pairwise distinct todos, `sort_todos` as written equals the stable partition |
| Ordering.SortTodosAsWrittenDropsDuplicate | todo.rb:43-49 | two equal todos are shown as one entry, with the second position, so the result is not a stable partition |
| Ordering.SortTodos | todo.rb:39-53 | the corrected display order, the intended counterpart of `Ordering.SortTodosAsWritten` (see Findings): it meets the stable-partition specification for every input, repeats included |
| Ordering.RemainingIsFirstGroup | todo.rb:25 | in the corrected display order (`Ordering.SortTodos`) the not-done group has exactly `remaining_todos` entries; as written, `sort_todos` agrees with it only on pairwise distinct todos (`Ordering.SortTodosAsWrittenOnDistinct`), since a repeated todo is shown once but counted each time |
| Session.Handle | todo.rb:11-14 | a failed request leaves the normalised collection unchanged; only create and rename report duplicates; only create, rename and add-todo report length errors; create and delete-list never report `NotFound`; the collection grows only by a successful create and shrinks only by an in-range delete |
| Session.HandleRunsHandler | todo.rb:11-14 | a request succeeds exactly when its handler succeeds on the normalised collection; the session then keeps the handler's result, and otherwise reports the handler's error |
| Session.HandleLeavesOthersConsistent | todo.rb:11-21 | after any request every list whose todos the handler did not change has a consistent flag; the list whose todos did change keeps the flag computed before the change |
| Session.TodosChangeKeepsWellFormed | todo.rb:160-195 | changing one list's todos to valid ones keeps the invariant |
| Session.NormaliseKeepsWellFormed | todo.rb:17-21 | the normalisation pass keeps the invariant |
| Session.DeleteListKeepsWellFormed | todo.rb:136-141 | deleting a list keeps the invariant |
| Session.DeleteTodoKeepsWellFormed | todo.rb:166-169 | deleting a todo keeps the invariant |
| Session.ApplyKeepsWellFormed | todo.rb:88-199 | every successful handler keeps dense numbering, unique names and valid lengths |
| Session.HandleKeepsWellFormed | todo.rb:11-199 | every request, successful or not, keeps the invariant |
| Session.GroceriesScenario | todo.rb:147-187 | create, add "Milk", mark it done: complete; add "Eggs": no longer complete |
| Session.DeleteRenumbersScenario | todo.rb:136-141 | after creating "A" and "B" and deleting position 0, only "B" remains, at position 0 |

## Left out

- Sinatra routing, `redirect`, `erb` rendering, `content_for`, the layout, and the `list_class` view helper: framework and presentation glue.
- The read-only routes (`GET /lists`, `/lists/new`, `/lists/:num`, `/lists/:num/edit`): they only render. Their lookup by `num` is `ListOps.Find`.
- Session cookie storage, the session secret, and the flash `success`/`error` strings. These are transport and display side effects. The collection is an explicit parameter and result, and errors are `Error` values rather than message strings.
- Request parsing: `String#strip` is not modelled, and inputs are taken as already stripped. `String#to_i` is not modelled: indices are `nat`, so a negative index (which `delete_at` at todo.rb:138 and 169 and `Array#[]` at todo.rb:119, 178-180 and 192 count from the end, so that deleting list -1 deletes the last list and renaming list -1 renames the last list) and a non-numeric one (which `to_i` reads as 0) are not represented. `params[:completed] == "true"` is a `bool`.
- Ruby's hash records and `nil`: a list's name blanked during a rename is modelled by leaving that list out of the uniqueness check (`ListOps.OtherNames`), which is what comparing against `nil` amounts to.
- Completion.RemainingTodos: its own contract states only the upper bound. The exact count is stated through its partners `Completion.RemainingExtremes`, `Completion.RemainingConcat` and `Ordering.RemainingIsFirstGroup`.
- Ordering.SortLists: its own contract states only the length. The display promise holds only for lists that are pairwise distinct, so it is stated in `Ordering.SortListsIsStable` under unique names.
- Ordering.TodoHash: its own contract states only that entries are correct pairs with the requested flag. Distinct keys, last positions and coverage are stated in its partner `Ordering.TodoHashShape`, and the order of the keys (by first occurrence) in its partner `Ordering.TodoHashFirstOrder`; together they determine the hash completely.
- Ordering.SortTodosAsWritten: its contract states only that entries are correct pairs in not-done-first order. It does not state that every todo appears, because with repeated todos that is false (see Findings). Within each group the entries follow the key order of the hash, which `Ordering.TodoHashFirstOrder` states (first occurrence), with the positions `Ordering.TodoHashShape` states (last occurrence).

## Findings

| source | as written | input that shows it | evidently intended | confidence | as-written member | corrected member |
|---|---|---|---|---|---|---|
| todo.rb:40-49 | `sort_todos` keys two hashes by the todo record, so structurally equal todos share one key. The entry keeps its first slot (`Ordering.TodoHashFirstOrder`) but takes the last position (`Ordering.TodoHashShape`). | two todos both named "Milk", neither done: one entry, `("Milk", 1)`, is shown | every todo shown once, with its own position, so that each can be deleted or toggled | high, not executed | Ordering.SortTodosAsWrittenDropsDuplicate | Ordering.SortTodos |

=== FILE: completion.dfy ===
/** The derived state of a list: the cached "all complete" flag and the count
    of todos still to do. */
module Completion {
  import opened Model

  /** A list is complete when it has todos and every one of them is done;
      an empty list is never complete. */
  predicate Complete(todos: seq<Todo>)
  {
    |todos| > 0 && forall i :: 0 <= i < |todos| ==> todos[i].completed
  }

  /** The cached flag of `l` agrees with its todos. */
  predicate Consistent(l: TodoList)
  {
    l.todosCompleted == Complete(l.todos)
  }

  /** Every todo is done (vacuously so when there are none), as Ruby's `all?` reports. */
  function AllDone(todos: seq<Todo>): (r: bool)
    ensures r <==> forall i :: 0 <= i < |todos| ==> todos[i].completed
  {
    if |todos| == 0 then true else todos[0].completed && AllDone(todos[1..])
  }

  /** Recomputes the cached flag of one list: first `all?` over the todos,
      then forced to false when the list is empty. */
  function Recompute(l: TodoList): (r: TodoList)
    ensures Consistent(r)
    ensures r.num == l.num && r.name == l.name && r.todos == l.todos
    ensures Consistent(l) ==> r == l
  {
    var all := AllDone(l.todos);
    l.(todosCompleted := if |l.todos| == 0 then false else all)
  }

  /** The normalisation pass run before every request: recompute every list's flag. */
  function UpdateTodosCompleted(lists: seq<TodoList>): (r: seq<TodoList>)
    ensures |r| == |lists|
    ensures forall k :: 0 <= k < |r| ==> Consistent(r[k])
    ensures forall k :: 0 <= k < |r| ==> r[k] == lists[k].(todosCompleted := r[k].todosCompleted)
    ensures (forall k :: 0 <= k < |lists| ==> Consistent(lists[k])) ==> r == lists
  {
    seq(|lists|, k requires 0 <= k < |lists| => Recompute(lists[k]))
  }

  /** Running the normalisation pass twice is the same as running it once. */
  lemma UpdateTodosCompletedIdempotent(lists: seq<TodoList>)
    ensures UpdateTodosCompleted(UpdateTodosCompleted(lists)) == UpdateTodosCompleted(lists)
  {
  }

  /** The number of todos not yet done. */
  function RemainingTodos(todos: seq<Todo>): (r: nat)
    ensures r <= |todos|
  {
    if |todos| == 0 then 0
    else RemainingTodos(todos[..|todos| - 1]) + (if todos[|todos| - 1].completed then 0 else 1)
  }

  /** None remain exactly when every todo is done, and all remain exactly when none is. */
  lemma {:induction false} RemainingExtremes(todos: seq<Todo>)
    ensures RemainingTodos(todos) == 0 <==> forall i :: 0 <= i < |todos| ==> todos[i].completed
    ensures RemainingTodos(todos) == |todos| <==> forall i :: 0 <= i < |todos| ==> !todos[i].completed
    decreases |todos|
  {
    if |todos| > 0 {
      var init := todos[..|todos| - 1];
      RemainingExtremes(init);
      assert forall i :: 0 <= i < |init| ==> init[i] == todos[i];
    }
  }

  /** The remaining count is additive over concatenation. */
  lemma {:induction false} RemainingConcat(a: seq<Todo>, b: seq<Todo>)
    ensures RemainingTodos(a + b) == RemainingTodos(a) + RemainingTodos(b)
    decreases |b|
  {
    if |b| > 0 {
      assert (a + b)[..|a + b| - 1] == a + b[..|b| - 1];
      RemainingConcat(a, b[..|b| - 1]);
    } else {
      assert a + b == a;
    }
  }

  /** The flag of a consistent list is set exactly when it has todos and none remain. */
  lemma CompleteIffNoneRemaining(l: TodoList)
    requires Consistent(l)
    ensures l.todosCompleted <==> |l.todos| > 0 && RemainingTodos(l.todos) == 0
  {
    RemainingExtremes(l.todos);
  }
}

=== FILE: list_ops.dfy ===
/** Operations on the collection of lists: create, rename, delete, and the
    lookup of a list by its `num`. */
module ListOps {
  import opened Model
  import opened Validation

  /** Every list's `num` is its position in the collection. */
  predicate Dense(lists: seq<TodoList>)
  {
    forall k :: 0 <= k < |lists| ==> lists[k].num == k
  }

  /** No two lists share a name. */
  predicate UniqueNames(lists: seq<TodoList>)
  {
    forall j, k :: 0 <= j < k < |lists| ==> lists[j].name != lists[k].name
  }

  /** Creates a list named `name` at the end of the collection, numbered by the
      prior count, with no todos and the flag cleared. */
  function CreateList(lists: seq<TodoList>, name: string): (r: Result<seq<TodoList>>)
    ensures r == Err(InvalidLength) <==> !(1 <= |name| <= 100)
    ensures r == Err(DuplicateName) <==>
              (1 <= |name| <= 100 && exists k :: 0 <= k < |lists| && lists[k].name == name)
    ensures r.Err? ==> r.error != NotFound
    ensures r.Ok? ==>
              && |r.value| == |lists| + 1
              && r.value[..|lists|] == lists
              && r.value[|lists|] == TodoList(|lists|, name, [], false)
    ensures r.Ok? && Dense(lists) ==> Dense(r.value)
    ensures r.Ok? && UniqueNames(lists) ==> UniqueNames(r.value)
  {
    match ListNameError(name, Names(lists))
    case Some(e) => Err(e)
    case None => Ok(lists + [TodoList(|lists|, name, [], false)])
  }

  /** The names the uniqueness check sees during a rename: the target's own name
      is blanked before the check, so only the other lists' names remain. */
  function OtherNames(lists: seq<TodoList>, i: nat): (r: seq<string>)
    requires i < |lists|
    ensures forall name :: name in r <==> exists k :: 0 <= k < |lists| && k != i && lists[k].name == name
  {
    var r := Names(lists[..i]) + Names(lists[i + 1..]);
    assert forall k :: 0 <= k < |lists| && k < i ==> r[k] == lists[k].name;
    assert forall k :: 0 <= k < |lists| && k > i ==> r[k - 1] == lists[k].name;
    r
  }

  /** Renames the list at position `i`. On an error the list keeps its old name
      and the collection is unchanged. */
  function RenameList(lists: seq<TodoList>, i: nat, name: string): (r: Result<seq<TodoList>>)
    ensures r == Err(NotFound) <==> i >= |lists|
    ensures r == Err(InvalidLength) <==> i < |lists| && !(1 <= |name| <= 100)
    ensures r == Err(DuplicateName) <==>
              && i < |lists| && 1 <= |name| <= 100
              && exists k :: 0 <= k < |lists| && k != i && lists[k].name == name
    ensures r.Ok? ==>
              && |r.value| == |lists|
              && r.value[i] == lists[i].(name := name)
              && forall k :: 0 <= k < |lists| && k != i ==> r.value[k] == lists[k]
    ensures r.Ok? && Dense(lists) ==> Dense(r.value)
    ensures r.Ok? && UniqueNames(lists) ==> UniqueNames(r.value)
  {
    if i >= |lists| then Err(NotFound)
    else
      match ListNameError(name, OtherNames(lists, i))
      case Some(e) => Err(e)
      case None => Ok(lists[i := lists[i].(name := name)])
  }

  /** Renaming a list to the name it already has never reports a duplicate,
      and when that name is of valid length it changes nothing. */
  lemma RenameToOwnName(lists: seq<TodoList>, i: nat)
    requires i < |lists| && UniqueNames(lists)
    ensures RenameList(lists, i, lists[i].name) != Err(DuplicateName)
    ensures ValidLength(lists[i].name) ==> RenameList(lists, i, lists[i].name) == Ok(lists)
  {
    var name := lists[i].name;
    forall k | 0 <= k < |lists| && k != i
      ensures lists[k].name != name
    {
      // UniqueNames speaks of ordered pairs, so each order is a separate instance.
      if k < i {} else {}
    }
    assert lists[i := lists[i].(name := name)] == lists;
  }

  /** Gives every list its position as its `num`. */
  function Renumber(lists: seq<TodoList>): (r: seq<TodoList>)
    ensures |r| == |lists| && Dense(r)
    ensures forall k :: 0 <= k < |lists| ==> r[k] == lists[k].(num := k)
  {
    seq(|lists|, k requires 0 <= k < |lists| => lists[k].(num := k))
  }

  /** Deletes the list at position `i` (an index past the end removes nothing,
      as Ruby's `delete_at` does) and renumbers the rest. */
  function DeleteList(lists: seq<TodoList>, i: nat): (r: seq<TodoList>)
    ensures Dense(r)
    ensures i < |lists| ==> |r| == |lists| - 1
    ensures i < |lists| ==> forall k :: 0 <= k < i ==> r[k] == lists[k].(num := k)
    ensures i < |lists| ==> forall k :: i <= k < |r| ==> r[k] == lists[k + 1].(num := k)
    ensures i >= |lists| ==> |r| == |lists| && forall k :: 0 <= k < |r| ==> r[k] == lists[k].(num := k)
    ensures i >= |lists| && Dense(lists) ==> r == lists
    ensures UniqueNames(lists) ==> UniqueNames(r)
  {
    var rest := if i < |lists| then lists[..i] + lists[i + 1..] else lists;
    assert forall k :: 0 <= k < |rest| ==> rest[k] == lists[if i < |lists| && k >= i then k + 1 else k];
    Renumber(rest)
  }

  /** Ruby's `find` over the collection: the first list whose `num` is `num`. */
  function Find(lists: seq<TodoList>, num: nat): (r: Option<TodoList>)
    ensures r.Some? ==> r.value.num == num
    ensures r.Some? ==> exists k :: && 0 <= k < |lists| && r.value == lists[k]
                                    && forall m :: 0 <= m < k ==> lists[m].num != num
    ensures r.None? <==> forall k :: 0 <= k < |lists| ==> lists[k].num != num
  {
    if |lists| == 0 then None
    else if lists[0].num == num then Some(lists[0])
    else Find(lists[1..], num)
  }

  /** In a dense collection, the lookup by `num` used by some handlers agrees
      with the direct indexing used by others. */
  lemma FindIsIndex(lists: seq<TodoList>, num: nat)
    requires Dense(lists)
    ensures Find(lists, num) == if num < |lists| then Some(lists[num]) else None
  {
  }
}

=== FILE: model.dfy ===
/** Data model of the todo manager: the session holds an ordered sequence of
    todo lists, each holding an ordered sequence of todos. */
module Model {

  /** One todo item: its text and whether it has been done. */
  datatype Todo = Todo(name: string, completed: bool)

  /** One todo list. `num` is the list's position in the session collection;
      `todosCompleted` is a cached flag, recomputed at the start of every request. */
  datatype TodoList = TodoList(num: nat, name: string, todos: seq<Todo>, todosCompleted: bool)

  /** The ways a request can fail. `NotFound` stands for an index that does not
      resolve to a list or todo. */
  datatype Error = InvalidLength | DuplicateName | NotFound

  datatype Option<T> = None | Some(value: T)

  /** The outcome of an operation: the new collection, or the error that left
      the collection as it was. */
  datatype Result<T> = Ok(value: T) | Err(error: Error)

  /** The names of the lists, in collection order. */
  function Names(lists: seq<TodoList>): (r: seq<string>)
    ensures |r| == |lists|
    ensures forall k :: 0 <= k < |lists| ==> r[k] == lists[k].name
  {
    seq(|lists|, k requires 0 <= k < |lists| => lists[k].name)
  }
}

=== FILE: ordering.dfy ===
/** Display ordering: lists and todos are shown not yet complete first, then
    complete, each paired with its position in the stored collection. */
module Ordering {
  import opened Model
  import opened Completion
  import opened ListOps

  /** No element occurs twice. */
  predicate Distinct<T(==)>(s: seq<T>)
  {
    forall j, k :: 0 <= j < k < |s| ==> s[j] != s[k]
  }

  /** The reference specification of the display order: `r` lists every
      position of `s` exactly once, paired with its element; entries that are
      not done come before those that are; and within each group the original
      order is kept. */
  predicate IsStablePartition<T(==)>(s: seq<T>, done: T -> bool, r: seq<(T, nat)>)
  {
    && |r| == |s|
    && (forall j :: 0 <= j < |r| ==> r[j].1 < |s| && s[r[j].1] == r[j].0)
    && (forall j, k :: 0 <= j < k < |r| ==> r[j].1 != r[k].1)
    && (forall j, k :: 0 <= j < k < |r| && done(r[j].0) ==> done(r[k].0))
    && (forall j, k :: 0 <= j < k < |r| && done(r[j].0) == done(r[k].0) ==> r[j].1 < r[k].1)
  }

  /** The elements among the first `n` of `s` whose `done` value is `want`,
      each paired with its position, in order of position. */
  function Bucket<T(==)>(s: seq<T>, n: nat, done: T -> bool, want: bool): (r: seq<(T, nat)>)
    requires n <= |s|
    ensures |r| <= n
    ensures forall j :: 0 <= j < |r| ==> r[j].1 < n && s[r[j].1] == r[j].0 && done(r[j].0) == want
    ensures forall j, k :: 0 <= j < k < |r| ==> r[j].1 < r[k].1
    decreases n
  {
    if n == 0 then []
    else
      var earlier := Bucket(s, n - 1, done, want);
      if done(s[n - 1]) == want then earlier + [(s[n - 1], n - 1)] else earlier
  }

  /** Every one of the first `n` positions lands in exactly one of the two buckets. */
  lemma {:induction false} BucketSizes<T>(s: seq<T>, n: nat, done: T -> bool)
    requires n <= |s|
    ensures |Bucket(s, n, done, false)| + |Bucket(s, n, done, true)| == n
    decreases n
  {
    if n > 0 {
      BucketSizes(s, n - 1, done);
    }
  }

  /** The two buckets, not-done first. */
  function Partition<T(==)>(s: seq<T>, done: T -> bool): seq<(T, nat)>
  {
    Bucket(s, |s|, done, false) + Bucket(s, |s|, done, true)
  }

  /** The partition meets the reference specification for every input. */
  lemma PartitionIsStable<T>(s: seq<T>, done: T -> bool)
    ensures IsStablePartition(s, done, Partition(s, done))
  {
    var a, b := Bucket(s, |s|, done, false), Bucket(s, |s|, done, true);
    var r := a + b;
    BucketSizes(s, |s|, done);
    forall j, k | 0 <= j < k < |r|
      ensures r[j].1 != r[k].1
      ensures done(r[j].0) ==> done(r[k].0)
      ensures done(r[j].0) == done(r[k].0) ==> r[j].1 < r[k].1
    {
      if k < |a| {
      } else if j >= |a| {
        assert r[j] == b[j - |a|] && r[k] == b[k - |a|];
      } else {
        assert r[j] == a[j] && r[k] == b[k - |a|];
      }
    }
  }

  /** Ruby's `partition` half: the elements whose `done` value is `want`, in order. */
  function Select<T>(s: seq<T>, done: T -> bool, want: bool): (r: seq<T>)
    ensures |r| <= |s|
    ensures forall j :: 0 <= j < |r| ==> done(r[j]) == want
  {
    if |s| == 0 then []
    else
      var earlier := Select(s[..|s| - 1], done, want);
      if done(s[|s| - 1]) == want then earlier + [s[|s| - 1]] else earlier
  }

  /** The elements of a sequence of pairs, without their positions. */
  function Keys<T, U>(r: seq<(T, U)>): (ks: seq<T>)
    ensures |ks| == |r|
  {
    seq(|r|, j requires 0 <= j < |r| => r[j].0)
  }

  /** A half of `partition` over the first `n` elements is exactly the bucket
      with the positions dropped: the same elements, in the same order. */
  lemma {:induction false} SelectIsBucketKeys<T>(s: seq<T>, n: nat, done: T -> bool, want: bool)
    requires n <= |s|
    ensures Select(s[..n], done, want) == Keys(Bucket(s, n, done, want))
    decreases n
  {
    if n > 0 {
      assert s[..n][..n - 1] == s[..n - 1];
      SelectIsBucketKeys(s, n - 1, done, want);
      var b := Bucket(s, n - 1, done, want);
      if done(s[n - 1]) == want {
        assert Keys(b + [(s[n - 1], n - 1)]) == Keys(b) + [s[n - 1]];
      }
    }
  }

  /** The same for the whole sequence. */
  lemma SelectIsBucket<T>(s: seq<T>, done: T -> bool, want: bool)
    ensures Select(s, done, want) == Keys(Bucket(s, |s|, done, want))
  {
    assert s[..|s|] == s;
    SelectIsBucketKeys(s, |s|, done, want);
  }

  /** Ruby's `index`: the first position holding `x`. */
  function IndexOf<T(==)>(s: seq<T>, x: T): (i: nat)
    requires x in s
    ensures i < |s| && s[i] == x
    ensures forall k :: 0 <= k < i ==> s[k] != x
  {
    if s[0] == x then 0 else 1 + IndexOf(s[1..], x)
  }

  /** Pairs each of `xs` with its first position in `s`. */
  function Locate<T(==)>(s: seq<T>, xs: seq<T>): (r: seq<(T, nat)>)
    requires forall j :: 0 <= j < |xs| ==> xs[j] in s
    ensures |r| == |xs|
    ensures forall j :: 0 <= j < |xs| ==> r[j] == (xs[j], IndexOf(s, xs[j]))
  {
    if |xs| == 0 then []
    else Locate(s, xs[..|xs| - 1]) + [(xs[|xs| - 1], IndexOf(s, xs[|xs| - 1]))]
  }

  /** Locating the selected prefix elements of a sequence without repeats gives the bucket. */
  lemma {:induction false} LocateSelect<T>(s: seq<T>, n: nat, done: T -> bool, want: bool)
    requires n <= |s| && Distinct(s)
    ensures forall j :: 0 <= j < |Select(s[..n], done, want)| ==> Select(s[..n], done, want)[j] in s
    ensures Locate(s, Select(s[..n], done, want)) == Bucket(s, n, done, want)
    decreases n
  {
    SelectFrom(s[..n], done, want);
    if n > 0 {
      assert s[..n][..n - 1] == s[..n - 1];
      LocateSelect(s, n - 1, done, want);
      if done(s[n - 1]) == want {
        LocateSnoc(s, Select(s[..n - 1], done, want), n - 1);
      }
    }
  }

  /** Locating one more element of a sequence without repeats appends its true position. */
  lemma {:induction false} LocateSnoc<T>(s: seq<T>, xs: seq<T>, i: nat)
    requires i < |s| && Distinct(s) && forall j :: 0 <= j < |xs| ==> xs[j] in s
    ensures Locate(s, xs + [s[i]]) == Locate(s, xs) + [(s[i], i)]
  {
    var ys := xs + [s[i]];
    assert ys[..|ys| - 1] == xs;
    assert IndexOf(s, s[i]) == i;
  }

  /** Everything `Select` returns comes from its input. */
  lemma {:induction false} SelectFrom<T>(s: seq<T>, done: T -> bool, want: bool)
    ensures forall j :: 0 <= j < |Select(s, done, want)| ==> Select(s, done, want)[j] in s
    decreases |s|
  {
    if |s| > 0 {
      SelectFrom(s[..|s| - 1], done, want);
    }
  }

  function ListDone(l: TodoList): bool { l.todosCompleted }

  function TodoDone(t: Todo): bool { t.completed }

  /** `sort_lists`: the lists split by their flag, each looked up by `index`. */
  function SortLists(lists: seq<TodoList>): (r: seq<(TodoList, nat)>)
    ensures |r| == |lists|
  {
    var incomplete := Select(lists, ListDone, false);
    var complete := Select(lists, ListDone, true);
    SelectFrom(lists, ListDone, false);
    SelectFrom(lists, ListDone, true);
    SelectSizes(lists, ListDone);
    Locate(lists, incomplete) + Locate(lists, complete)
  }

  /** The two halves of a partition together have as many elements as the input. */
  lemma {:induction false} SelectSizes<T>(s: seq<T>, done: T -> bool)
    ensures |Select(s, done, false)| + |Select(s, done, true)| == |s|
    decreases |s|
  {
    if |s| > 0 {
      SelectSizes(s[..|s| - 1], done);
    }
  }

  /** With unique names the lists are pairwise distinct, so `sort_lists` shows
      every list once, not-complete first, in stable order, with its true position. */
  lemma SortListsIsStable(lists: seq<TodoList>)
    requires UniqueNames(lists)
    ensures SortLists(lists) == Partition(lists, ListDone)
    ensures IsStablePartition(lists, ListDone, SortLists(lists))
  {
    assert lists[..|lists|] == lists;
    LocateSelect(lists, |lists|, ListDone, false);
    LocateSelect(lists, |lists|, ListDone, true);
    PartitionIsStable(lists, ListDone);
  }

  /** The slot of key `k` in an insertion-ordered hash, or `|h|` when `k` is absent. */
  function KeySlot<K(==), V>(h: seq<(K, V)>, k: K): (p: nat)
    ensures p <= |h|
    ensures p < |h| ==> h[p].0 == k
    ensures forall q :: 0 <= q < p ==> h[q].0 != k
  {
    if |h| == 0 then 0
    else if h[0].0 == k then 0
    else 1 + KeySlot(h[1..], k)
  }

  /** Ruby's hash assignment `h[k] = v` on an insertion-ordered hash, kept as a
      sequence of entries: a key already present keeps its slot and takes the
      new value, a new key is appended. */
  function Store<K(==), V>(h: seq<(K, V)>, k: K, v: V): (r: seq<(K, V)>)
    ensures (forall p :: 0 <= p < |h| ==> h[p].0 != k) ==> r == h + [(k, v)]
    ensures (exists p :: 0 <= p < |h| && h[p].0 == k) ==>
              exists p :: && 0 <= p < |h| && h[p].0 == k
                          && (forall q :: 0 <= q < p ==> h[q].0 != k)
                          && r == h[p := (k, v)]
  {
    var p := KeySlot(h, k);
    if p < |h| then h[p := (k, v)] else h + [(k, v)]
  }

  /** One of the two hashes `sort_todos` fills: todos whose flag is `want`,
      among the first `n`, keyed by the todo record itself. */
  function TodoHash(todos: seq<Todo>, n: nat, want: bool): (r: seq<(Todo, nat)>)
    requires n <= |todos|
    ensures |r| <= n
    ensures forall j :: 0 <= j < |r| ==> r[j].1 < n && todos[r[j].1] == r[j].0 && r[j].0.completed == want
  {
    if n == 0 then []
    else
      var h := TodoHash(todos, n - 1, want);
      if todos[n - 1].completed == want then Store<Todo, nat>(h, todos[n - 1], n - 1) else h
  }

  /** Every entry pairs a todo among the first `n` with its position and has the flag `want`. */
  predicate HashPairs(todos: seq<Todo>, n: nat, want: bool, r: seq<(Todo, nat)>)
    requires n <= |todos|
  {
    forall j :: 0 <= j < |r| ==> r[j].1 < n && todos[r[j].1] == r[j].0 && r[j].0.completed == want
  }

  /** No key occurs twice. */
  predicate KeysDistinct(r: seq<(Todo, nat)>)
  {
    forall a, b :: 0 <= a < b < |r| ==> r[a].0 != r[b].0
  }

  /** Each key carries the last position, among the first `n`, at which its todo occurs. */
  predicate LastPositions(todos: seq<Todo>, n: nat, r: seq<(Todo, nat)>)
    requires n <= |todos|
  {
    forall j, i :: 0 <= j < |r| && r[j].1 < i < n ==> todos[i] != r[j].0
  }

  /** `k` is a key of the hash. */
  predicate HasKey(r: seq<(Todo, nat)>, k: Todo)
  {
    exists j :: 0 <= j < |r| && r[j].0 == k
  }

  /** Every todo among the first `n` with the flag `want` is a key. */
  predicate Covers(todos: seq<Todo>, n: nat, want: bool, r: seq<(Todo, nat)>)
    requires n <= |todos|
  {
    forall i :: 0 <= i < n && todos[i].completed == want ==> HasKey(r, todos[i])
  }

  /** What a `sort_todos` hash holds after the first `n` todos. */
  predicate HashShape(todos: seq<Todo>, n: nat, want: bool, r: seq<(Todo, nat)>)
    requires n <= |todos|
  {
    HashPairs(todos, n, want, r) && KeysDistinct(r) && LastPositions(todos, n, r) && Covers(todos, n, want, r)
  }

  /** Every hash `sort_todos` builds has the shape above: keys are pairwise
      distinct, repeated todos collapse into one key that carries the last
      position, and every todo with the flag `want` is a key. */
  lemma {:induction false} TodoHashShape(todos: seq<Todo>, n: nat, want: bool)
    requires n <= |todos|
    ensures HashShape(todos, n, want, TodoHash(todos, n, want))
    decreases n, 1
  {
    if n > 0 {
      var h := TodoHash(todos, n - 1, want);
      var t := todos[n - 1];
      if t.completed != want {
        StepSkip(todos, n, want);
      } else if p :| 0 <= p < |h| && h[p].0 == t {
        StepOverwrite(todos, n, want, p);
      } else {
        StepAppend(todos, n, want);
      }
    }
  }

  /** The three cases of one step of `each_with_index`: a todo without the
      flag `want`, a todo already a key, and a new key. */
  lemma {:induction false} StepSkip(todos: seq<Todo>, n: nat, want: bool)
    requires 0 < n <= |todos| && todos[n - 1].completed != want
    ensures HashShape(todos, n, want, TodoHash(todos, n, want))
    decreases n, 0
  {
    TodoHashShape(todos, n - 1, want);
    var h := TodoHash(todos, n - 1, want);
    assert TodoHash(todos, n, want) == h;
    ShapeSkip(todos, n, want, h);
  }

  lemma {:induction false} StepOverwrite(todos: seq<Todo>, n: nat, want: bool, p: nat)
    requires 0 < n <= |todos| && todos[n - 1].completed == want
    requires p < |TodoHash(todos, n - 1, want)| && TodoHash(todos, n - 1, want)[p].0 == todos[n - 1]
    ensures HashShape(todos, n, want, TodoHash(todos, n, want))
    decreases n, 0
  {
    TodoHashShape(todos, n - 1, want);
    var h := TodoHash(todos, n - 1, want);
    StoreAt(h, todos[n - 1], n - 1, p);
    assert TodoHash(todos, n, want) == h[p := (todos[n - 1], n - 1)];
    ShapeOverwrite(todos, n, want, h, p);
  }

  lemma {:induction false} StepAppend(todos: seq<Todo>, n: nat, want: bool)
    requires 0 < n <= |todos| && todos[n - 1].completed == want
    requires !HasKey(TodoHash(todos, n - 1, want), todos[n - 1])
    ensures HashShape(todos, n, want, TodoHash(todos, n, want))
    decreases n, 0
  {
    TodoHashShape(todos, n - 1, want);
    AppendHash(todos, n, want);
    ShapeAppend(todos, n, want, TodoHash(todos, n - 1, want), TodoHash(todos, n, want));
  }

  /** Every key is one of the todos. */
  predicate KeysFrom(todos: seq<Todo>, ks: seq<Todo>)
  {
    forall j :: 0 <= j < |ks| ==> ks[j] in todos
  }

  /** Keys are ordered by the first position at which their todo occurs. */
  predicate FirstOrder(todos: seq<Todo>, ks: seq<Todo>)
    requires KeysFrom(todos, ks)
  {
    forall a, b :: 0 <= a < b < |ks| ==> IndexOf(todos, ks[a]) < IndexOf(todos, ks[b])
  }

  /** A `sort_todos` hash lists its keys in order of first occurrence: a
      repeated todo keeps the slot its first occurrence gave it, while
      `TodoHashShape` says it carries its last position. */
  lemma {:induction false} TodoHashFirstOrder(todos: seq<Todo>, n: nat, want: bool)
    requires n <= |todos|
    ensures KeysFrom(todos, Keys(TodoHash(todos, n, want)))
    ensures FirstOrder(todos, Keys(TodoHash(todos, n, want)))
    decreases n, 1
  {
    if n > 0 {
      var h := TodoHash(todos, n - 1, want);
      var t := todos[n - 1];
      if t.completed != want {
        FirstSkip(todos, n, want);
      } else if HasKey(h, t) {
        FirstOverwrite(todos, n, want);
      } else {
        FirstAppend(todos, n, want);
      }
    }
  }

  lemma {:induction false} FirstSkip(todos: seq<Todo>, n: nat, want: bool)
    requires 0 < n <= |todos| && todos[n - 1].completed != want
    ensures KeysFrom(todos, Keys(TodoHash(todos, n, want)))
    ensures FirstOrder(todos, Keys(TodoHash(todos, n, want)))
    decreases n, 0
  {
    TodoHashFirstOrder(todos, n - 1, want);
    assert TodoHash(todos, n, want) == TodoHash(todos, n - 1, want);
  }

  lemma {:induction false} FirstOverwrite(todos: seq<Todo>, n: nat, want: bool)
    requires 0 < n <= |todos| && todos[n - 1].completed == want
    requires HasKey(TodoHash(todos, n - 1, want), todos[n - 1])
    ensures KeysFrom(todos, Keys(TodoHash(todos, n, want)))
    ensures FirstOrder(todos, Keys(TodoHash(todos, n, want)))
    decreases n, 0
  {
    TodoHashFirstOrder(todos, n - 1, want);
    OverwriteKeepsKeys(todos, n, want);
  }

  lemma {:induction false} FirstAppend(todos: seq<Todo>, n: nat, want: bool)
    requires 0 < n <= |todos| && todos[n - 1].completed == want
    requires !HasKey(TodoHash(todos, n - 1, want), todos[n - 1])
    ensures KeysFrom(todos, Keys(TodoHash(todos, n, want)))
    ensures FirstOrder(todos, Keys(TodoHash(todos, n, want)))
    decreases n, 0
  {
    TodoHashFirstOrder(todos, n - 1, want);
    AppendKeys(todos, n, want);
    NewKeyIsFresh(todos, n, want);
    AppendFirstOrder(todos, n, TodoHash(todos, n - 1, want), Keys(TodoHash(todos, n, want)));
  }

  /** Storing a todo that is already a key leaves the keys as they were. */
  lemma {:induction false} OverwriteKeepsKeys(todos: seq<Todo>, n: nat, want: bool)
    requires 0 < n <= |todos| && todos[n - 1].completed == want
    requires HasKey(TodoHash(todos, n - 1, want), todos[n - 1])
    ensures Keys(TodoHash(todos, n, want)) == Keys(TodoHash(todos, n - 1, want))
  {
    var h := TodoHash(todos, n - 1, want);
    var t := todos[n - 1];
    assert TodoHash(todos, n, want) == Store(h, t, n - 1);
    StoreKeepsKeys(h, t, n - 1);
  }

  /** Assigning to a key already present leaves the keys as they were. */
  lemma {:induction false} StoreKeepsKeys<K, V>(h: seq<(K, V)>, k: K, v: V)
    requires exists p :: 0 <= p < |h| && h[p].0 == k
    ensures Keys(Store(h, k, v)) == Keys(h)
  {
    var q :| 0 <= q < |h| && h[q].0 == k && Store(h, k, v) == h[q := (k, v)];
    var r := h[q := (k, v)];
    assert forall j :: 0 <= j < |h| ==> Keys(r)[j] == Keys(h)[j];
  }

  /** Storing a todo that is not yet a key appends it, with its position, to the hash. */
  lemma {:induction false} AppendHash(todos: seq<Todo>, n: nat, want: bool)
    requires 0 < n <= |todos| && todos[n - 1].completed == want
    requires !HasKey(TodoHash(todos, n - 1, want), todos[n - 1])
    ensures TodoHash(todos, n, want) == TodoHash(todos, n - 1, want) + [(todos[n - 1], n - 1)]
  {
  }

  /** Storing a todo that is not yet a key appends it to the keys. */
  lemma {:induction false} AppendKeys(todos: seq<Todo>, n: nat, want: bool)
    requires 0 < n <= |todos| && todos[n - 1].completed == want
    requires !HasKey(TodoHash(todos, n - 1, want), todos[n - 1])
    ensures Keys(TodoHash(todos, n, want)) == Keys(TodoHash(todos, n - 1, want)) + [todos[n - 1]]
  {
    AppendHash(todos, n, want);
  }

  /** A todo with the flag `want` that is not yet a key has not occurred before. */
  lemma {:induction false} NewKeyIsFresh(todos: seq<Todo>, n: nat, want: bool)
    requires 0 < n <= |todos| && todos[n - 1].completed == want
    requires !HasKey(TodoHash(todos, n - 1, want), todos[n - 1])
    ensures forall i :: 0 <= i < n - 1 ==> todos[i] != todos[n - 1]
  {
    TodoHashShape(todos, n - 1, want);
  }

  /** A new key has no earlier occurrence, so it comes after every existing key. */
  lemma {:induction false} AppendFirstOrder(todos: seq<Todo>, n: nat, h: seq<(Todo, nat)>, ks: seq<Todo>)
    requires 0 < n <= |todos| && forall i :: 0 <= i < n - 1 ==> todos[i] != todos[n - 1]
    requires forall j :: 0 <= j < |h| ==> h[j].1 < n - 1 && todos[h[j].1] == h[j].0
    requires KeysFrom(todos, Keys(h)) && FirstOrder(todos, Keys(h))
    requires ks == Keys(h) + [todos[n - 1]]
    ensures KeysFrom(todos, ks) && FirstOrder(todos, ks)
  {
    var t := todos[n - 1];
    var old_ks := Keys(h);
    assert IndexOf(todos, t) == n - 1;
    forall a | 0 <= a < |h|
      ensures IndexOf(todos, old_ks[a]) < n - 1
    {
      assert todos[h[a].1] == old_ks[a];
    }
    forall a, b | 0 <= a < b < |ks|
      ensures IndexOf(todos, ks[a]) < IndexOf(todos, ks[b])
    {
      assert ks[a] == old_ks[a];
      if b < |h| {
        assert ks[b] == old_ks[b];
      }
    }
  }

  /** In a hash with distinct keys, storing at an existing key replaces that entry. */
  lemma {:induction false} StoreAt(h: seq<(Todo, nat)>, k: Todo, v: nat, p: nat)
    requires KeysDistinct(h) && p < |h| && h[p].0 == k
    ensures Store(h, k, v) == h[p := (k, v)]
  {
  }

  /** A todo without the flag `want` leaves the hash as it was. */
  lemma {:induction false} ShapeSkip(todos: seq<Todo>, n: nat, want: bool, h: seq<(Todo, nat)>)
    requires 0 < n <= |todos| && HashShape(todos, n - 1, want, h)
    requires todos[n - 1].completed != want
    ensures HashShape(todos, n, want, h)
  {
  }

  /** A todo that is not yet a key is appended with its position. */
  lemma {:induction false} ShapeAppend(todos: seq<Todo>, n: nat, want: bool, h: seq<(Todo, nat)>, r: seq<(Todo, nat)>)
    requires 0 < n <= |todos| && HashShape(todos, n - 1, want, h)
    requires todos[n - 1].completed == want && !HasKey(h, todos[n - 1])
    requires r == h + [(todos[n - 1], n - 1)]
    ensures HashShape(todos, n, want, r)
  {
    assert HashPairs(todos, n, want, r);
    assert KeysDistinct(r);
    AppendLast(todos, n, h);
    AppendCovers(todos, n, want, h);
  }

  lemma {:induction false} AppendLast(todos: seq<Todo>, n: nat, h: seq<(Todo, nat)>)
    requires 0 < n <= |todos| && LastPositions(todos, n - 1, h)
    requires forall j :: 0 <= j < |h| ==> h[j].1 < n - 1
    requires forall q :: 0 <= q < |h| ==> h[q].0 != todos[n - 1]
    ensures LastPositions(todos, n, h + [(todos[n - 1], n - 1)])
  {
  }

  lemma {:induction false} AppendCovers(todos: seq<Todo>, n: nat, want: bool, h: seq<(Todo, nat)>)
    requires 0 < n <= |todos| && Covers(todos, n - 1, want, h)
    ensures Covers(todos, n, want, h + [(todos[n - 1], n - 1)])
  {
    var r := h + [(todos[n - 1], n - 1)];
    forall i | 0 <= i < n && todos[i].completed == want
      ensures HasKey(r, todos[i])
    {
      if i == n - 1 {
        assert r[|h|].0 == todos[i];
      } else {
        var j :| 0 <= j < |h| && h[j].0 == todos[i];
        assert r[j].0 == todos[i];
      }
    }
  }

  /** A todo already a key keeps that key's slot and replaces its position. */
  lemma {:induction false} ShapeOverwrite(todos: seq<Todo>, n: nat, want: bool, h: seq<(Todo, nat)>, p: nat)
    requires 0 < n <= |todos| && HashShape(todos, n - 1, want, h)
    requires p < |h| && h[p].0 == todos[n - 1]
    ensures HashShape(todos, n, want, h[p := (todos[n - 1], n - 1)])
  {
    var r := h[p := (todos[n - 1], n - 1)];
    assert HashPairs(todos, n, want, r);
    assert KeysDistinct(r) by {
      assert forall j :: 0 <= j < |h| ==> r[j].0 == h[j].0;
    }
    OverwriteLast(todos, n, h, p);
    OverwriteCovers(todos, n, want, h, p);
  }

  lemma {:induction false} OverwriteLast(todos: seq<Todo>, n: nat, h: seq<(Todo, nat)>, p: nat)
    requires 0 < n <= |todos| && LastPositions(todos, n - 1, h) && KeysDistinct(h)
    requires forall j :: 0 <= j < |h| ==> h[j].1 < n - 1
    requires p < |h| && h[p].0 == todos[n - 1]
    ensures LastPositions(todos, n, h[p := (todos[n - 1], n - 1)])
  {
  }

  lemma {:induction false} OverwriteCovers(todos: seq<Todo>, n: nat, want: bool, h: seq<(Todo, nat)>, p: nat)
    requires 0 < n <= |todos| && Covers(todos, n - 1, want, h)
    requires p < |h| && h[p].0 == todos[n - 1]
    ensures Covers(todos, n, want, h[p := (todos[n - 1], n - 1)])
  {
    var r := h[p := (todos[n - 1], n - 1)];
    assert forall j :: 0 <= j < |h| ==> r[j].0 == h[j].0;
    forall i | 0 <= i < n && todos[i].completed == want
      ensures HasKey(r, todos[i])
    {
      if i == n - 1 {
        assert r[p].0 == todos[i];
      } else {
        var j :| 0 <= j < |h| && h[j].0 == todos[i];
        assert r[j].0 == todos[i];
      }
    }
  }

  /** `sort_todos` as written: the not-done hash, then the done hash. Equal
      todos share one hash key, so only one of them is shown. */
  function SortTodosAsWritten(todos: seq<Todo>): (r: seq<(Todo, nat)>)
    ensures forall j :: 0 <= j < |r| ==> r[j].1 < |todos| && todos[r[j].1] == r[j].0
    ensures forall j, k :: 0 <= j < k < |r| && r[j].0.completed ==> r[k].0.completed
  {
    TodoHash(todos, |todos|, false) + TodoHash(todos, |todos|, true)
  }

  /** On pairwise distinct todos every hash key is new, so the hash is the bucket. */
  lemma {:induction false} TodoHashIsBucket(todos: seq<Todo>, n: nat, want: bool)
    requires n <= |todos| && Distinct(todos)
    ensures TodoHash(todos, n, want) == Bucket(todos, n, TodoDone, want)
    decreases n
  {
    if n > 0 {
      TodoHashIsBucket(todos, n - 1, want);
      var h := Bucket(todos, n - 1, TodoDone, want);
      forall p | 0 <= p < |h|
        ensures h[p].0 != todos[n - 1]
      {
        assert todos[h[p].1] == h[p].0 && h[p].1 < n - 1;
      }
    }
  }

  /** The display order of todos: not done first, then done, stable, each with
      its own position, including todos that repeat one another. */
  function SortTodos(todos: seq<Todo>): (r: seq<(Todo, nat)>)
    ensures IsStablePartition(todos, TodoDone, r)
  {
    PartitionIsStable(todos, TodoDone);
    Partition(todos, TodoDone)
  }

  /** On pairwise distinct todos the code as written agrees with the stable partition. */
  lemma SortTodosAsWrittenOnDistinct(todos: seq<Todo>)
    requires Distinct(todos)
    ensures SortTodosAsWritten(todos) == SortTodos(todos)
  {
    TodoHashIsBucket(todos, |todos|, false);
    TodoHashIsBucket(todos, |todos|, true);
  }

  /** Two equal todos collapse into one hash entry: only the second is shown,
      so the display is not a stable partition of the todos. */
  lemma SortTodosAsWrittenDropsDuplicate()
    ensures var todos := [Todo("Milk", false), Todo("Milk", false)];
            && SortTodosAsWritten(todos) == [(Todo("Milk", false), 1)]
            && !IsStablePartition(todos, TodoDone, SortTodosAsWritten(todos))
  {
    var todos := [Todo("Milk", false), Todo("Milk", false)];
    assert TodoHash(todos, 0, false) == [];
    assert TodoHash(todos, 1, false) == [(todos[0], 0)];
    assert KeySlot([(todos[0], 0)], todos[1]) == 0;
    assert [(todos[0], 0)][0 := (todos[1], 1)] == [(todos[1], 1)];
    assert TodoHash(todos, 2, false) == [(todos[1], 1)];
    assert TodoHash(todos, 1, true) == [];
    assert TodoHash(todos, 2, true) == [];
  }

  /** The number of not-done todos shown first is the remaining count. */
  lemma {:induction false} RemainingIsFirstGroup(todos: seq<Todo>, n: nat)
    requires n <= |todos|
    ensures |Bucket(todos, n, TodoDone, false)| == RemainingTodos(todos[..n])
    decreases n
  {
    if n > 0 {
      assert todos[..n][..n - 1] == todos[..n - 1];
      RemainingIsFirstGroup(todos, n - 1);
    }
  }
}

=== FILE: session.dfy ===
/** One request against the session's collection: the normalisation pass that
    runs before every request, then the handler the route selects. */
module Session {
  import opened Model
  import opened Validation
  import opened Completion
  import L = ListOps
  import T = TodoOps

  /** The state-changing routes, with their parameters already parsed. */
  datatype Request =
    | CreateList(name: string)
    | RenameList(num: nat, name: string)
    | DeleteList(num: nat)
    | AddTodo(num: nat, text: string)
    | DeleteTodo(num: nat, todoNum: nat)
    | ToggleTodo(num: nat, todoNum: nat, completed: bool)
    | CompleteAll(num: nat)

  /** The collection stored back in the session, and the error shown, if any. */
  datatype Response = Response(lists: seq<TodoList>, error: Option<Error>)

  /** Every todo of `l` has a text of valid length. */
  predicate ValidTodos(l: TodoList)
  {
    forall j :: 0 <= j < |l.todos| ==> ValidLength(l.todos[j].name)
  }

  /** The invariant the handlers keep: lists numbered by position, uniquely
      named, and every name and todo text of valid length. */
  predicate WellFormed(lists: seq<TodoList>)
  {
    && L.Dense(lists)
    && L.UniqueNames(lists)
    && forall k :: 0 <= k < |lists| ==> ValidLength(lists[k].name) && ValidTodos(lists[k])
  }

  /** The handler a request selects, applied to the collection. */
  function Apply(lists: seq<TodoList>, req: Request): Result<seq<TodoList>>
  {
    match req
    case CreateList(name) => L.CreateList(lists, name)
    case RenameList(num, name) => L.RenameList(lists, num, name)
    case DeleteList(num) => Ok(L.DeleteList(lists, num))
    case AddTodo(num, text) => T.AddTodo(lists, num, text)
    case DeleteTodo(num, todoNum) => T.DeleteTodo(lists, num, todoNum)
    case ToggleTodo(num, todoNum, completed) => T.ToggleTodo(lists, num, todoNum, completed)
    case CompleteAll(num) => T.CompleteAll(lists, num)
  }

  /** A whole request: recompute the flags, then run the handler; on an error
      the recomputed collection is kept as it was. */
  function Handle(lists: seq<TodoList>, req: Request): (r: Response)
    ensures |r.lists| == |lists| + (if req.CreateList? && r.error.None? then 1 else 0)
                                 - (if req.DeleteList? && req.num < |lists| then 1 else 0)
    ensures r.error.Some? ==> r.lists == UpdateTodosCompleted(lists)
    ensures r.error == Some(DuplicateName) ==> req.CreateList? || req.RenameList?
    ensures r.error == Some(InvalidLength) ==> req.CreateList? || req.RenameList? || req.AddTodo?
    ensures r.error == Some(NotFound) ==> !req.CreateList? && !req.DeleteList?
  {
    var current := UpdateTodosCompleted(lists);
    match Apply(current, req)
    case Ok(next) => Response(next, None)
    case Err(e) => Response(current, Some(e))
  }

  /** The routes whose handler changes the todos of the list at `num`. */
  predicate ChangesTodos(req: Request)
  {
    req.AddTodo? || req.DeleteTodo? || req.ToggleTodo? || req.CompleteAll?
  }

  /** A request runs its handler on the normalised collection: the session
      keeps the handler's result when it succeeds, and the handler's error is
      the one reported when it fails. */
  lemma HandleRunsHandler(lists: seq<TodoList>, req: Request)
    ensures Handle(lists, req).error.None? <==> Apply(UpdateTodosCompleted(lists), req).Ok?
    ensures Handle(lists, req).error.None? ==> Apply(UpdateTodosCompleted(lists), req) == Ok(Handle(lists, req).lists)
    ensures Handle(lists, req).error.Some? ==>
              Apply(UpdateTodosCompleted(lists), req) == Err(Handle(lists, req).error.value)
  {
  }

  /** After any request, every list whose todos the handler did not change has
      a consistent flag, because the normalisation pass ran first. The list
      whose todos did change keeps the flag computed before the change. */
  lemma HandleLeavesOthersConsistent(lists: seq<TodoList>, req: Request)
    ensures var r := Handle(lists, req);
            forall k :: 0 <= k < |r.lists| && !(ChangesTodos(req) && r.error.None? && k == req.num) ==>
              Consistent(r.lists[k])
    ensures var r := Handle(lists, req);
            ChangesTodos(req) && r.error.None? ==>
              req.num < |lists| && r.lists[req.num].todosCompleted == Complete(lists[req.num].todos)
  {
  }

  /** Changing only the todos of one list, to todos of valid text, keeps the invariant. */
  lemma TodosChangeKeepsWellFormed(lists: seq<TodoList>, r: seq<TodoList>, num: nat)
    requires WellFormed(lists) && T.OnlyTodosChanged(lists, r, num) && ValidTodos(r[num])
    ensures WellFormed(r)
  {
  }

  /** The normalisation pass keeps the invariant. */
  lemma NormaliseKeepsWellFormed(lists: seq<TodoList>)
    requires WellFormed(lists)
    ensures WellFormed(UpdateTodosCompleted(lists))
  {
  }

  /** Deleting a list keeps the invariant. */
  lemma DeleteListKeepsWellFormed(lists: seq<TodoList>, num: nat)
    requires WellFormed(lists)
    ensures WellFormed(L.DeleteList(lists, num))
  {
  }

  /** Deleting a todo keeps the invariant. */
  lemma DeleteTodoKeepsWellFormed(lists: seq<TodoList>, num: nat, todoNum: nat)
    requires WellFormed(lists) && T.DeleteTodo(lists, num, todoNum).Ok?
    ensures WellFormed(T.DeleteTodo(lists, num, todoNum).value)
  {
  }

  /** Every handler that succeeds keeps the invariant. */
  lemma ApplyKeepsWellFormed(lists: seq<TodoList>, req: Request)
    requires WellFormed(lists) && Apply(lists, req).Ok?
    ensures WellFormed(Apply(lists, req).value)
  {
    var next := Apply(lists, req).value;
    match req
    case CreateList(name) =>
    case RenameList(num, name) =>
    case DeleteList(num) =>
      DeleteListKeepsWellFormed(lists, num);
    case AddTodo(num, text) =>
      TodosChangeKeepsWellFormed(lists, next, num);
    case DeleteTodo(num, todoNum) =>
      DeleteTodoKeepsWellFormed(lists, num, todoNum);
    case ToggleTodo(num, todoNum, completed) =>
      TodosChangeKeepsWellFormed(lists, next, num);
    case CompleteAll(num) =>
      TodosChangeKeepsWellFormed(lists, next, num);
  }

  /** Every request keeps the invariant, whether it succeeds or fails. */
  lemma HandleKeepsWellFormed(lists: seq<TodoList>, req: Request)
    requires WellFormed(lists)
    ensures WellFormed(Handle(lists, req).lists)
  {
    var current := UpdateTodosCompleted(lists);
    NormaliseKeepsWellFormed(lists);
    if Apply(current, req).Ok? {
      ApplyKeepsWellFormed(current, req);
    }
  }

  /** Create "Groceries", add "Milk", mark it done: the list is complete; add
      "Eggs": it is no longer complete. */
  lemma GroceriesScenario()
    ensures var s1 := Handle([], CreateList("Groceries")).lists;
            var s2 := Handle(s1, AddTodo(0, "Milk")).lists;
            var s3 := Handle(s2, ToggleTodo(0, 0, true)).lists;
            var s4 := Handle(s3, AddTodo(0, "Eggs")).lists;
            && UpdateTodosCompleted(s3)[0].todosCompleted
            && !UpdateTodosCompleted(s4)[0].todosCompleted
  {
    var s1 := Handle([], CreateList("Groceries")).lists;
    assert s1 == [TodoList(0, "Groceries", [], false)];
    assert UpdateTodosCompleted(s1) == s1;
    assert |"Milk"| == 4;
    var a2 := T.AddTodo(s1, 0, "Milk");
    assert a2.Ok? && a2.value[0] == TodoList(0, "Groceries", [Todo("Milk", false)], false);
    var s2 := Handle(s1, AddTodo(0, "Milk")).lists;
    assert s2 == [TodoList(0, "Groceries", [Todo("Milk", false)], false)];
    assert UpdateTodosCompleted(s2) == s2;
    var a3 := T.ToggleTodo(s2, 0, 0, true);
    assert a3.Ok? && a3.value[0] == TodoList(0, "Groceries", [Todo("Milk", true)], false);
    var s3 := Handle(s2, ToggleTodo(0, 0, true)).lists;
    assert s3 == [TodoList(0, "Groceries", [Todo("Milk", true)], false)];
    var n3 := UpdateTodosCompleted(s3);
    assert n3 == [TodoList(0, "Groceries", [Todo("Milk", true)], true)];
    assert |"Eggs"| == 4;
    var a4 := T.AddTodo(n3, 0, "Eggs");
    assert a4.Ok? && a4.value[0] == TodoList(0, "Groceries", [Todo("Milk", true), Todo("Eggs", false)], true);
    var s4 := Handle(s3, AddTodo(0, "Eggs")).lists;
    assert s4 == [TodoList(0, "Groceries", [Todo("Milk", true), Todo("Eggs", false)], true)];
  }

  /** Create "A" and "B", delete the list at position 0: "B" is left, at position 0. */
  lemma DeleteRenumbersScenario()
    ensures var s1 := Handle([], CreateList("A")).lists;
            var s2 := Handle(s1, CreateList("B")).lists;
            var s3 := Handle(s2, DeleteList(0)).lists;
            s3 == [TodoList(0, "B", [], false)]
  {
    var s1 := Handle([], CreateList("A")).lists;
    assert s1 == [TodoList(0, "A", [], false)];
    var s2 := Handle(s1, CreateList("B")).lists;
    assert s2 == [TodoList(0, "A", [], false), TodoList(1, "B", [], false)];
  }
}

=== FILE: todo_ops.dfy ===
/** Operations on the todos of one list: add, delete, toggle and complete-all.
    Each is first a change to a sequence of todos, then that change applied to
    one list of the collection. */
module TodoOps {
  import opened Model
  import opened Validation
  import opened Completion

  /** Ruby's `delete_at`: drops the todo at `j`, or nothing when `j` is past the end. */
  function RemoveAt(todos: seq<Todo>, j: nat): (r: seq<Todo>)
    ensures j < |todos| ==> |r| == |todos| - 1
    ensures j < |todos| ==> forall k :: 0 <= k < |r| ==> r[k] == todos[if k < j then k else k + 1]
    ensures j < |todos| ==> multiset(r) + multiset{todos[j]} == multiset(todos)
    ensures j >= |todos| ==> r == todos
  {
    if j < |todos| then
      assert todos == todos[..j] + [todos[j]] + todos[j + 1..];
      todos[..j] + todos[j + 1..]
    else todos
  }

  /** Sets the `completed` flag of the todo at `j` to `done`. */
  function SetCompleted(todos: seq<Todo>, j: nat, done: bool): (r: seq<Todo>)
    requires j < |todos|
    ensures |r| == |todos|
    ensures r[j] == Todo(todos[j].name, done)
    ensures forall k :: 0 <= k < |todos| && k != j ==> r[k] == todos[k]
  {
    todos[j := todos[j].(completed := done)]
  }

  /** Marks every todo done, keeping names and order. */
  function MarkAllDone(todos: seq<Todo>): (r: seq<Todo>)
    ensures |r| == |todos|
    ensures forall k :: 0 <= k < |todos| ==> r[k].name == todos[k].name && r[k].completed
  {
    seq(|todos|, k requires 0 <= k < |todos| => todos[k].(completed := true))
  }

  /** `r` differs from `lists` at most in the todos of the list at `num`. */
  predicate OnlyTodosChanged(lists: seq<TodoList>, r: seq<TodoList>, num: nat)
  {
    && |r| == |lists|
    && num < |lists|
    && r[num] == lists[num].(todos := r[num].todos)
    && forall k :: 0 <= k < |lists| && k != num ==> r[k] == lists[k]
  }

  /** Replaces the todos of the list at `num`. */
  function WithTodos(lists: seq<TodoList>, num: nat, todos: seq<Todo>): (r: seq<TodoList>)
    requires num < |lists|
    ensures OnlyTodosChanged(lists, r, num) && r[num].todos == todos
  {
    lists[num := lists[num].(todos := todos)]
  }

  /** Appends a new, not yet done todo to the list at `num`. The list lookup
      fails before the text is validated. */
  function AddTodo(lists: seq<TodoList>, num: nat, text: string): (r: Result<seq<TodoList>>)
    ensures r == Err(NotFound) <==> num >= |lists|
    ensures r == Err(InvalidLength) <==> num < |lists| && !(1 <= |text| <= 100)
    ensures r.Err? ==> r.error != DuplicateName
    ensures r.Ok? ==>
              && OnlyTodosChanged(lists, r.value, num)
              && r.value[num].todos == lists[num].todos + [Todo(text, false)]
  {
    if num >= |lists| then Err(NotFound)
    else
      match TodoError(text)
      case Some(e) => Err(e)
      case None => Ok(WithTodos(lists, num, lists[num].todos + [Todo(text, false)]))
  }

  /** Deletes the todo at `todoNum` from the list at `num`; a todo index past
      the end deletes nothing. */
  function DeleteTodo(lists: seq<TodoList>, num: nat, todoNum: nat): (r: Result<seq<TodoList>>)
    ensures r.Err? <==> num >= |lists|
    ensures r.Err? ==> r.error == NotFound
    ensures r.Ok? ==>
              && OnlyTodosChanged(lists, r.value, num)
              && r.value[num].todos == RemoveAt(lists[num].todos, todoNum)
  {
    if num >= |lists| then Err(NotFound)
    else Ok(WithTodos(lists, num, RemoveAt(lists[num].todos, todoNum)))
  }

  /** Sets the `completed` flag of one todo to the requested value. */
  function ToggleTodo(lists: seq<TodoList>, num: nat, todoNum: nat, done: bool): (r: Result<seq<TodoList>>)
    ensures r.Err? <==> num >= |lists| || todoNum >= |lists[num].todos|
    ensures r.Err? ==> r.error == NotFound
    ensures r.Ok? ==>
              && OnlyTodosChanged(lists, r.value, num)
              && |r.value[num].todos| == |lists[num].todos|
              && r.value[num].todos[todoNum] == Todo(lists[num].todos[todoNum].name, done)
              && forall k :: 0 <= k < |lists[num].todos| && k != todoNum ==>
                   r.value[num].todos[k] == lists[num].todos[k]
  {
    if num >= |lists| || todoNum >= |lists[num].todos| then Err(NotFound)
    else Ok(WithTodos(lists, num, SetCompleted(lists[num].todos, todoNum, done)))
  }

  /** Marks every todo of the list at `num` done. */
  function CompleteAll(lists: seq<TodoList>, num: nat): (r: Result<seq<TodoList>>)
    ensures r.Err? <==> num >= |lists|
    ensures r.Err? ==> r.error == NotFound
    ensures r.Ok? ==>
              && OnlyTodosChanged(lists, r.value, num)
              && |r.value[num].todos| == |lists[num].todos|
              && forall k :: 0 <= k < |lists[num].todos| ==>
                   r.value[num].todos[k] == Todo(lists[num].todos[k].name, true)
  {
    if num >= |lists| then Err(NotFound)
    else Ok(WithTodos(lists, num, MarkAllDone(lists[num].todos)))
  }

  /** Adding a todo adds one to the remaining count, and the list is no
      longer complete once its flag is recomputed. */
  lemma AddTodoEffect(lists: seq<TodoList>, num: nat, text: string)
    requires AddTodo(lists, num, text).Ok?
    ensures var l := AddTodo(lists, num, text).value[num];
            && RemainingTodos(l.todos) == RemainingTodos(lists[num].todos) + 1
            && !Recompute(l).todosCompleted
  {
  }

  /** The remaining count of `a + [x] + b` splits around `x`. */
  lemma RemainingAround(a: seq<Todo>, x: Todo, b: seq<Todo>)
    ensures RemainingTodos(a + [x] + b) ==
              RemainingTodos(a) + (if x.completed then 0 else 1) + RemainingTodos(b)
  {
    RemainingConcat(a + [x], b);
    RemainingConcat(a, [x]);
    assert [x][..0] == [];
  }

  /** Deleting a todo removes it from the remaining count exactly when it was not done. */
  lemma RemoveAtRemaining(todos: seq<Todo>, j: nat)
    requires j < |todos|
    ensures RemainingTodos(RemoveAt(todos, j)) ==
              RemainingTodos(todos) - (if todos[j].completed then 0 else 1)
  {
    var a, b := todos[..j], todos[j + 1..];
    SplitAt(todos, j);
    RemainingAround(a, todos[j], b);
    RemainingConcat(a, b);
  }

  /** Toggling moves the todo into or out of the remaining count according to
      its old and new flags. */
  lemma SetCompletedRemaining(todos: seq<Todo>, j: nat, done: bool)
    requires j < |todos|
    ensures RemainingTodos(SetCompleted(todos, j, done)) ==
              RemainingTodos(todos) - (if todos[j].completed then 0 else 1) + (if done then 0 else 1)
  {
    var a, b := todos[..j], todos[j + 1..];
    SplitAt(todos, j);
    SplitAt(SetCompleted(todos, j, done), j);
    RemainingAround(a, todos[j], b);
    RemainingAround(a, Todo(todos[j].name, done), b);
  }

  /** A sequence is its prefix, the element at `j` and its suffix. */
  lemma SplitAt(todos: seq<Todo>, j: nat)
    requires j < |todos|
    ensures todos == todos[..j] + [todos[j]] + todos[j + 1..]
  {
  }

  /** After complete-all nothing remains, and the list is complete exactly when it has todos. */
  lemma MarkAllDoneEffect(todos: seq<Todo>)
    ensures RemainingTodos(MarkAllDone(todos)) == 0
    ensures Complete(MarkAllDone(todos)) <==> |todos| > 0
  {
    RemainingExtremes(MarkAllDone(todos));
  }
}

=== FILE: validation.dfy ===
/** Input validation for list names and todo texts. */
module Validation {
  import opened Model

  const MinLength: nat := 1
  const MaxLength: nat := 100

  /** A list name or todo text has between 1 and 100 characters. */
  predicate ValidLength(s: string)
  {
    MinLength <= |s| <= MaxLength
  }

  /** The error for a proposed list name, given the names already in use.
      The length check takes precedence over the uniqueness check. */
  function ListNameError(name: string, taken: seq<string>): (r: Option<Error>)
    ensures r == Some(InvalidLength) <==> (|name| < 1 || 100 < |name|)
    ensures r == Some(DuplicateName) <==>
              (1 <= |name| <= 100 && exists k :: 0 <= k < |taken| && taken[k] == name)
    ensures r == None <==>
              (1 <= |name| <= 100 && forall k :: 0 <= k < |taken| ==> taken[k] != name)
  {
    if !ValidLength(name) then Some(InvalidLength)
    else if name in taken then Some(DuplicateName)
    else None
  }

  /** The error for a proposed todo text: only its length is checked. */
  function TodoError(text: string): (r: Option<Error>)
    ensures r.Some? <==> (|text| < 1 || 100 < |text|)
    ensures r.Some? ==> r.value == InvalidLength
  {
    if !ValidLength(text) then Some(InvalidLength) else None
  }
}
